=== FILE: README.md ===
# Hotel registration backend — Dafny model

This project models the logic of a small Express/SQL Server backend that
registers hotels (with a list of catalogue items) and sends a WhatsApp
confirmation through a messaging gateway:

- the two phone normalisers (`formatPhoneNumber`): the strict one of the
  registration controller and the lenient one of the legacy server;
- `saveHotelInfo`: validation of the four required fields, the
  all-or-nothing insert of a hotel and its items, and the response;
- `sendWhatsAppAndSaveInfo`: the same validation and transaction, then,
  after the commit, normalisation of `whatsapp` and the gateway call, whose
  failure only adds a `warning` to the 201;
- the legacy `/send-whatsapp` route: normalise `phone`, store a Users row,
  then send, without a transaction.

Modules, one per source component:

| file | module | models |
|---|---|---|
| `wrappers.dfy` | `Wrappers` | `null` returns and exceptions as `Option`/`Result` |
| `js_values.dfy` | `JsValues` | parsed JSON values, truthiness, `v \|\| null`, property reads |
| `js_strings.dfy` | `JsStrings` | `trim`, `.length` (UTF-16 code units), `startsWith` |
| `http.dfy` | `Http` | faults, side effects, responses, required-field validation |
| `db.dfy` | `Db` | Hotels/Items/Users tables with identity columns; the transaction |
| `phone.dfy` | `Phone` | both `formatPhoneNumber` variants |
| `hotel_controller.dfy` | `HotelController` | `saveHotelInfo` |
| `message_controller.dfy` | `MessageController` | `sendWhatsAppAndSaveInfo` |
| `server.dfy` | `Server` | the legacy `/send-whatsapp` route |
| `variants.dfy` | `Variants` | how the handlers relate to each other |

How the environment enters the model:

- A request body is a `map<string, JsValue>`; a missing key reads as
  `Undefined`. JS truthiness (`!name`) and `x || null` are modelled exactly.
- The database is an immutable `Store`: three append-only row sequences
  and the next value of each `IDENTITY(1,1)` column. Whether `begin`, each
  INSERT and `commit` succeed is an input (`DbFaults`). A transaction either
  commits every row or leaves the store exactly as it was.
- The gateway's answer is an input (`GatewayReply`). Each handler returns
  an `Outcome`: the new store, the response and the ordered list of side
  effects (`BeginTransaction`, `Commit`, `Rollback`, `InsertUser`,
  `Send(to, template)`). The effect list shows that no transaction is begun
  on a 400 and that a send happens only after the commit or the store.
- The handlers are modelled on what the code does, including the cases a
  reader might not expect. A non-string truthy `whatsapp` makes `phone.trim()` throw
  inside the notification `try`, so the result is a 201 with a warning. A
  null or undefined element of `items` makes `item.name` throw inside the
  transaction, so it is rolled back and the result is a 500. A non-string
  `phone` in the legacy route throws before its `try`, so the model says no
  response is sent (`Unhandled`).
- `warning` in a degraded 201 copies the gateway's error body, which may be
  empty, so the model carries whatever detail string the gateway returns.
- The code has two registration controllers that write different optional hotel columns: `Position`/`Address` in
  `saveHotelInfo`, `Description`/`PositionAddress` in
  `sendWhatsAppAndSaveInfo`. The model keeps both (`Db.Details`).
  `src/config/hotelDb.js` creates only the first pair. Against that schema
  every Hotels INSERT of `sendWhatsAppAndSaveInfo` would be rejected. The
  model covers this case through `hotelInsertFails`.

## Model

| member | source | states |
|---|---|---|
| `JsStrings.Trim` | src/controllers/messageController.js:122 | `trim` returns a string with no leading or trailing JS whitespace, never longer than its input |
| `JsStrings.TrimIsSlice` | server.js:65 | what `trim` keeps is one contiguous slice of the input, and everything removed on either side is whitespace |
| `JsStrings.TrimPadded` | server.js:65 | conversely, trimming `whitespace + core + whitespace` returns exactly `core`, so `trim` is the unique such decomposition |
| `JsStrings.TrimStartPadded` | server.js:65 | leading whitespace before a string that starts with a non-whitespace character is exactly what is stripped at the front |
| `JsStrings.TrimEndPadded` | server.js:65 | trailing whitespace after a string that ends with a non-whitespace character is exactly what is stripped at the back |
| `JsStrings.TrimIdempotent` | src/controllers/messageController.js:122 | trimming twice equals trimming once |
| `JsStrings.Utf16Length` | src/controllers/messageController.js:124 | `.length` counts UTF-16 code units: between one and two per character |
| `JsStrings.Utf16LengthAppend` | src/controllers/messageController.js:129 | the length of a concatenation is the sum of the lengths |
| `JsStrings.Utf16LengthBmp` | src/controllers/messageController.js:124 | for digits, `+` and other BMP text, `.length` is the number of characters |
| `Phone.Internationalize` | src/controllers/messageController.js:128-130 | rewriting a trimmed `0…` number gives a canonical `+` number, 2 code units longer, whose tail after `+98` is the input after its `0` |
| `Phone.InternationalizeRoundTrip` | server.js:66-67 | the rewrite starts with `+98` and is undone by putting the `0` back: nothing but the leading zero changes |
| `Phone.FormatStrict` | src/controllers/messageController.js:121-132 | accepts exactly trimmed `+` numbers of at least 10 code units (returned unchanged) and trimmed `0` numbers (rewritten to `+98…`, 2 longer); every other input, including `""` and short `+` numbers, gives null; every result starts with `+` and has no outer whitespace |
| `Phone.FormatLenient` | server.js:64-72 | accepts exactly trimmed `0` numbers (rewritten to `+98…`) and trimmed `+` numbers of any length (unchanged); everything else gives null; every result starts with `+` and has no outer whitespace |
| `Phone.LenientExtendsStrict` | server.js:64-72 | where the strict variant accepts, the lenient one returns the same string; they differ exactly on `+` numbers shorter than 10 code units, which only the lenient one accepts |
| `Phone.ShortInternationalNumber` | server.js:68-69 | `"+123"` is accepted unchanged by the lenient variant and rejected by the strict one |
| `Phone.LenientIdempotent` | server.js:64-72 | normalising a lenient result again returns it unchanged |
| `Phone.StrictIdempotentIffLong` | src/controllers/messageController.js:121-132 | normalising a strict result again returns it exactly when it has at least 10 code units, and null otherwise |
| `Phone.ShortNationalNumberNotStable` | src/controllers/messageController.js:124-130 | a `0` number under 8 code units (such as `0912`) is accepted, but its own normal form is then rejected |
| `Phone.NationalAndInternationalCollide` | src/controllers/messageController.js:121-132 | when the `+98…` spelling has at least 10 code units, the `0…` and `+98…` spellings of one number normalise to the same string under both variants |
| `Phone.ShortNationalAndInternationalDiverge` | src/controllers/messageController.js:121-132 | below 10 code units the strict variant accepts the `0…` spelling (as `+98…`) but rejects the `+98…` spelling of the same number, while the lenient variant maps both to `+98…` |
| `Db.InsertItems` | src/controllers/hotelController.js:42-53 | the item loop succeeds iff no element is null/undefined and no INSERT is rejected; then it appends one row per element, in order, with consecutive ids and the hotel's id; otherwise it reports the first failing element and why |
| `Db.ItemRowsUnfold` | src/controllers/messageController.js:60-69 | the rows for the remaining elements are the current element's row, with the next id, followed by the rows of the rest: the loop writes in input order |
| `Db.Transaction` | src/controllers/hotelController.js:21-67 | commits iff begin, the hotel INSERT, every item INSERT and commit succeed; on commit the store is the reference `Committed` store and the returned id is the fresh `SCOPE_IDENTITY`; on any failure the store is unchanged and a rollback is issued unless `begin` itself failed; a transaction never calls the gateway |
| `Db.CommittedRows` | src/controllers/hotelController.js:26-53 | the committed store holds the earlier rows, then one hotel row with the next hotel id and the given fields, then one item row per element in order, with consecutive item ids and that hotel id; users are untouched |
| `Db.CommittedValid` | src/controllers/hotelController.js:39-53 | the new hotel id is not taken, and a committed registration keeps ids increasing and unique and every item pointing at an existing hotel |
| `Db.IdsFreshAppend` | src/config/hotelDb.js:10 | appending consecutive values from an identity column's next value keeps the ids increasing and unique |
| `Db.StoreUser` | server.js:75-85 | the Users INSERT appends exactly one row, holding the given name and phone and the next identity value, keeps every earlier user and leaves hotels and items alone |
| `Db.StoreUserValid` | server.js:75-85 | the Users INSERT keeps the store valid |
| `Http.RequiredFieldsPresentMeaning` | src/controllers/hotelController.js:9 | a body passes validation iff all four of `name`, `phoneNumber`, `whatsapp`, `hotelName` are truthy: a missing, `null`, `""`, `0` or `false` one is rejected, and four non-empty strings are accepted (the same check as src/controllers/messageController.js:22) |
| `HotelController.SaveHotelInfo` | src/controllers/hotelController.js:4-76 | the status is 400, 500 or 201, and `success` is true exactly on the 201; 400 iff a required field is falsy, with the store unchanged and no transaction begun; 500 with the store unchanged after a begin failure or a rollback; 201 iff everything commits, carrying the new hotel id, issued only after the commit, with the store equal to the committed reference |
| `HotelController.SaveHotelInfoKeepsValid` | src/controllers/hotelController.js:21-62 | every outcome leaves a valid store valid |
| `HotelController.SaveHotelInfoRows` | src/controllers/hotelController.js:26-53 | a 201 adds exactly one Hotels row whose id is the returned one, with `name`, `phoneNumber`, `whatsapp` and `hotelName` as given, a truthy `position`/`address` as given and a falsy one as null; and `\|items\|` Items rows in order, each with that hotel id, the element's `name` and its `description`, or null when that is falsy; earlier rows are untouched |
| `HotelController.ResubmissionCreatesSecondHotel` | src/controllers/hotelController.js:26-39 | the same valid payload submitted twice creates two hotels with two distinct, previously unused ids |
| `MessageController.Notify` | src/controllers/messageController.js:80-109 | the gateway is called, once, with the strict normal form of `whatsapp`, iff `whatsapp` is a string the strict variant accepts; the warning is absent iff that call is delivered, and otherwise names the non-string, the rejected format or the gateway error |
| `MessageController.SendWhatsAppAndSaveInfo` | src/controllers/messageController.js:10-118 | the status is 400, 500 or 201, and `success` is true exactly on the 201; 400 iff a required field is falsy, with no effect; 500 only with the store unchanged and no send, after a `begin` attempt, and ending in a rollback unless `begin` itself failed; 201 iff the transaction commits, with the committed store and id; the effects of a 201 are exactly `begin`, `commit` and at most one send after them, which goes to the strict normal form of `whatsapp`, and the warning is absent iff the message was delivered |
| `MessageController.Registered` | src/controllers/messageController.js:79-108 | after a commit the answer is always a 201 with the committed store and id; the confirmation is sent once, after `begin` and `commit`, to the strict normal form of `whatsapp`, iff that is a string the strict variant accepts; otherwise the effects are just `begin` and `commit`; the warning is absent iff the message was delivered |
| `MessageController.SendWhatsAppAndSaveInfoRows` | src/controllers/messageController.js:43-70 | a 201 adds exactly one Hotels row whose id is the returned one, with `name`, `phoneNumber`, `whatsapp` and `hotelName` as given, a truthy `description`/`positionAddress` as given and a falsy one as null; and `\|items\|` Items rows in order, each with that hotel id, the element's `name` and its `description`, or null when that is falsy; earlier rows are untouched |
| `MessageController.SendWhatsAppAndSaveInfoKeepsValid` | src/controllers/messageController.js:34-78 | every outcome leaves a valid store valid |
| `MessageController.NotificationNeverUndoesSave` | src/controllers/messageController.js:80-109 | whether the gateway delivers or rejects changes only the warning: same store, same effects, same status and hotel id |
| `Server.StoreThenSend` | server.js:40-60 | the Users row is written first; a failed INSERT gives a 500 with no send; otherwise the row holds the normalised phone, the greeting is sent to it, and a gateway failure gives a 500 that keeps the row |
| `Server.SendWhatsapp` | server.js:27-61 | a non-string phone throws before any response; a phone the lenient variant rejects gives a 400 with no store and no send; otherwise the outcome is the store-then-send step on the normalised phone; never a 201, and `success` is true exactly on a 200 |
| `Server.StoreBeforeSend` | server.js:40-60 | a send happens only after the Users row is stored; a 200 is returned iff the phone normalises, the insert succeeds and the gateway delivers; a 500 after a send keeps the stored row |
| `Server.StoresNormalizedPhone` | server.js:31-42 | the stored Users row carries the normalised phone, not the raw input, plus the given name and the next user id; hotels and items are untouched |
| `Server.SendWhatsappKeepsValid` | server.js:75-85 | every outcome leaves a valid store valid |
| `Variants.ControllersPersistAlike` | src/controllers/messageController.js:22-78 | both registration controllers reject the same bodies and, under the same faults, commit the same hotel id and item rows, keep the earlier hotels, and store one new hotel row with the same `name`, `phoneNumber`, `whatsapp` and `hotelName`, differing only in the optional column pair; when they do not commit, neither changes the store |
| `Variants.ShortNumberDivergence` | server.js:64-72 | a short `+` number is sent by the legacy route but only produces a warning, with no send, in the registration controller |

## Left out

- The gateway POST (`sendMessage`, src/controllers/messageController.js:135-153 and server.js:88-105) is a call to a third-party HTTP API. Only its result is modelled (`GatewayReply`), and the message text is kept as the values put into it (`Template`).
- Connection-pool creation and environment loading (src/config/db.js) are runtime configuration. A pool that failed to connect shows up as a failed `begin` or a failed Users INSERT.
- Table creation (src/config/hotelDb.js, config/initDb.js) and route registration (src/routes/*.js) are SQL DDL and one-line Express wiring, with no logic to state.
- SQL Server semantics are abstracted. Each statement's success is an input, so NOT NULL, column-length and column-existence checks, isolation levels and concurrent requests are not modelled. A rollback restores the identity counters too, whereas SQL Server leaves gaps in them.
- A rollback or a response write that itself throws is not modelled. In the source it leads to the same 500, or to no response.
- Error message texts (`error.message`, the JSON `message` fields) and logging are not modelled. Faults are named by kind instead.
- JS strings can hold lone UTF-16 surrogates, which a Dafny `char` cannot. `trim`, `startsWith` and `slice(1)` only look at BMP characters, so the model is exact for all other strings.
- JSON numbers are modelled as reals. `JSON.parse` can yield negative zero (`-0`) and Infinity (`1e999`), which a real cannot hold, so the model has no separate value for them. The handlers only test numbers for truthiness, and that is kept: negative zero is falsy like `Num(0.0)`, and Infinity is truthy like any non-zero real.
- `Unhandled` assumes Express 4, where a rejected async handler sends no response; on Node 15 or later the unhandled rejection also ends the process by default, and Express 5 would instead answer with a 500 from its default error handler. The Express version is not fixed by the files modelled here.

=== FILE: db.dfy ===
/** The SQL Server tables the handlers write, as an append-only store with
    identity columns, and the transaction that inserts one hotel together
    with its items. */
module Db {
  import opened Wrappers
  import opened JsValues
  import opened Http

  /** The two optional hotel columns; the two registration handlers write
      different column pairs. */
  datatype Details =
    | PositionAddress(position: JsValue, address: JsValue)
    | DescriptionPosition(description: JsValue, positionAddress: JsValue)

  /** The values bound to the parameters of the Hotels INSERT. */
  datatype HotelFields = HotelFields(
    name: JsValue, phoneNumber: JsValue, whatsapp: JsValue, hotelName: JsValue,
    details: Details)

  datatype Hotel = Hotel(id: nat, fields: HotelFields)
  datatype Item = Item(id: nat, hotelId: nat, name: JsValue, description: JsValue)
  datatype User = User(id: nat, name: JsValue, phone: string)

  /** The committed rows of the three tables, and the next value of each
      `IDENTITY(1,1)` column. */
  datatype Store = Store(
    hotels: seq<Hotel>, items: seq<Item>, users: seq<User>,
    nextHotelId: nat, nextItemId: nat, nextUserId: nat)

  /** The whole state after a handler: store, response and side effects. */
  datatype Outcome = Outcome(store: Store, response: Response, effects: seq<Effect>)

  function HotelIds(s: Store): set<nat> {
    set h | h in s.hotels :: h.id
  }

  /** Identity values are positive, increase along each table and lie below
      the next value handed out. */
  ghost predicate IdsFresh(ids: seq<nat>, next: nat) {
    && 1 <= next
    && (forall i :: 0 <= i < |ids| ==> 1 <= ids[i] < next)
    && (forall i, j :: 0 <= i < j < |ids| ==> ids[i] < ids[j])
  }

  function HotelIdSeq(hotels: seq<Hotel>): seq<nat> {
    seq(|hotels|, i requires 0 <= i < |hotels| => hotels[i].id)
  }

  function ItemIdSeq(items: seq<Item>): seq<nat> {
    seq(|items|, i requires 0 <= i < |items| => items[i].id)
  }

  function UserIdSeq(users: seq<User>): seq<nat> {
    seq(|users|, i requires 0 <= i < |users| => users[i].id)
  }

  /** Every item references a stored hotel (the Items foreign key). */
  ghost predicate ReferencesHold(s: Store) {
    forall i :: 0 <= i < |s.items| ==> s.items[i].hotelId in HotelIds(s)
  }

  ghost predicate Valid(s: Store) {
    && IdsFresh(HotelIdSeq(s.hotels), s.nextHotelId)
    && IdsFresh(ItemIdSeq(s.items), s.nextItemId)
    && IdsFresh(UserIdSeq(s.users), s.nextUserId)
    && ReferencesHold(s)
  }

  /** Appending consecutive fresh ids keeps a column valid. */
  lemma {:induction false} IdsFreshAppend(ids: seq<nat>, next: nat, n: nat)
    requires IdsFresh(ids, next)
    ensures IdsFresh(ids + seq(n, k => next + k), next + n)
  {
    var all := ids + seq(n, k => next + k);
    assert forall i :: |ids| <= i < |all| ==> all[i] == next + (i - |ids|);
  }

  /** The outcome of each database statement, which the model takes as
      given: whether `begin`, the Hotels INSERT and `commit` are rejected,
      and the indices of the items whose INSERT would be rejected. */
  datatype DbFaults = DbFaults(
    beginFails: bool, hotelInsertFails: bool, rejectedItems: set<nat>, commitFails: bool)

  const NoFaults := DbFaults(false, false, {}, false)

  /** The Items row written for one element of `items`: `item.name` as
      given and `item.description || null`. */
  function ItemRow(id: nat, hotelId: nat, elem: JsValue): Item
    requires !Nullish(elem)
  {
    Item(id, hotelId, Get(elem, "name"), OrNull(Get(elem, "description")))
  }

  /** Elements `from..` can all be inserted: none is null or undefined and
      the database rejects none of them. */
  predicate Insertable(elems: seq<JsValue>, from: nat, rejected: set<nat>) {
    forall k :: from <= k < |elems| ==> !Nullish(elems[k]) && k !in rejected
  }

  /** Reference definition of the rows the item loop writes for elements
      `from..`: one per element, in order, with consecutive ids. */
  function ItemRows(elems: seq<JsValue>, from: nat, hotelId: nat, firstId: nat): (rows: seq<Item>)
    requires from <= |elems|
    requires forall k :: from <= k < |elems| ==> !Nullish(elems[k])
  {
    seq(|elems| - from, k requires 0 <= k < |elems| - from =>
      ItemRow(firstId + k, hotelId, elems[from + k]))
  }

  /** The store once a transaction inserting `fields` and `elems` commits. */
  function Committed(s: Store, fields: HotelFields, elems: seq<JsValue>): Store
    requires forall k :: 0 <= k < |elems| ==> !Nullish(elems[k])
  {
    s.(hotels := s.hotels + [Hotel(s.nextHotelId, fields)],
       items := s.items + ItemRows(elems, 0, s.nextHotelId, s.nextItemId),
       nextHotelId := s.nextHotelId + 1,
       nextItemId := s.nextItemId + |elems|)
  }

  /** The committed store holds one new hotel row and the item rows of the
      reference, after every earlier row. */
  lemma CommittedRows(s: Store, fields: HotelFields, elems: seq<JsValue>)
    requires forall k :: 0 <= k < |elems| ==> !Nullish(elems[k])
    ensures var c := Committed(s, fields, elems);
      && c.hotels == s.hotels + [Hotel(s.nextHotelId, fields)]
      && c.users == s.users
      && |c.items| == |s.items| + |elems|
      && c.items[..|s.items|] == s.items
      && forall k :: 0 <= k < |elems| ==> c.items[|s.items| + k] == ItemRow(s.nextItemId + k, s.nextHotelId, elems[k])
  {
    var c := Committed(s, fields, elems);
    var rows := ItemRows(elems, 0, s.nextHotelId, s.nextItemId);
    forall k | 0 <= k < |elems|
      ensures c.items[|s.items| + k] == ItemRow(s.nextItemId + k, s.nextHotelId, elems[k])
    {
      assert c.items[|s.items| + k] == rows[k];
    }
  }

  /** The Hotels INSERT inside the transaction; its id is `SCOPE_IDENTITY()`. */
  function InsertHotel(s: Store, fields: HotelFields): Store {
    s.(hotels := s.hotels + [Hotel(s.nextHotelId, fields)], nextHotelId := s.nextHotelId + 1)
  }

  /** The item loop from element `from` on, one INSERT per element. It stops
      at the first element that is null or undefined (reading `item.name`
      throws) or whose INSERT is rejected. */
  function InsertItems(work: Store, hotelId: nat, elems: seq<JsValue>, from: nat, rejected: set<nat>)
    : (r: Result<Store, Fault>)
    requires from <= |elems|
    ensures r.Success? <==> Insertable(elems, from, rejected)
    ensures r.Success? ==>
      r.value == work.(items := work.items + ItemRows(elems, from, hotelId, work.nextItemId),
                       nextItemId := work.nextItemId + |elems| - from)
    ensures r.Failure? ==>
      && (r.error.ItemNotAnObject? || r.error.ItemInsertFailed?)
      && from <= r.error.index < |elems|
      && Insertable(elems[..r.error.index], from, rejected)
      && (r.error.ItemNotAnObject? <==> Nullish(elems[r.error.index]))
      && (r.error.ItemInsertFailed? ==> r.error.index in rejected)
    decreases |elems| - from
  {
    if from == |elems| then
      Success(work)
    else if Nullish(elems[from]) then
      Failure(ItemNotAnObject(from))
    else if from in rejected then
      Failure(ItemInsertFailed(from))
    else
      var next := work.(items := work.items + [ItemRow(work.nextItemId, hotelId, elems[from])],
                        nextItemId := work.nextItemId + 1);
      var r := InsertItems(next, hotelId, elems, from + 1, rejected);
      if r.Success? then
        ItemRowsUnfold(elems, from, hotelId, work.nextItemId);
        r
      else
        r
  }

  /** The rows for elements `from..` are the row of element `from`
      followed by the rows for the rest. */
  lemma ItemRowsUnfold(elems: seq<JsValue>, from: nat, hotelId: nat, firstId: nat)
    requires from < |elems|
    requires forall k :: from <= k < |elems| ==> !Nullish(elems[k])
    ensures ItemRows(elems, from, hotelId, firstId)
         == [ItemRow(firstId, hotelId, elems[from])] + ItemRows(elems, from + 1, hotelId, firstId + 1)
  {
  }

  /** What a transaction reports: the store afterwards, the new hotel's id
      or the fault that aborted it, and the transaction statements issued. */
  datatype Tx = Tx(store: Store, hotelId: Result<nat, Fault>, effects: seq<Effect>)

  /** `begin`, the Hotels INSERT, one Items INSERT per element, `commit`;
      any failure after `begin` rolls the transaction back and is re-thrown. */
  function Transaction(s: Store, fields: HotelFields, elems: seq<JsValue>, faults: DbFaults): (tx: Tx)
    ensures tx.hotelId.Success? <==>
      !faults.beginFails && !faults.hotelInsertFails && !faults.commitFails
      && Insertable(elems, 0, faults.rejectedItems)
    ensures tx.hotelId.Failure? ==> tx.store == s
    ensures !SentAny(tx.effects)
    ensures tx.hotelId.Success? ==>
      && tx.hotelId.value == s.nextHotelId
      && tx.store == Committed(s, fields, elems)
      && tx.effects == [BeginTransaction, Commit]
    ensures tx.hotelId.Failure? ==>
      if faults.beginFails then tx.effects == [BeginTransaction] && tx.hotelId.error == BeginFailed
      else |tx.effects| >= 2 && tx.effects[0] == BeginTransaction && tx.effects[|tx.effects| - 1] == Rollback
  {
    if faults.beginFails then
      Tx(s, Failure(BeginFailed), [BeginTransaction])
    else if faults.hotelInsertFails then
      Tx(s, Failure(HotelInsertFailed), [BeginTransaction, Rollback])
    else
      var id := s.nextHotelId;
      var work := InsertHotel(s, fields);
      match InsertItems(work, id, elems, 0, faults.rejectedItems)
      case Failure(e) => Tx(s, Failure(e), [BeginTransaction, Rollback])
      case Success(done) =>
        if faults.commitFails then
          Tx(s, Failure(CommitFailed), [BeginTransaction, Commit, Rollback])
        else
          Tx(done, Success(id), [BeginTransaction, Commit])
  }

  /** A committed transaction keeps the store valid: the new hotel's id is
      fresh, and every new item references it. */
  lemma CommittedValid(s: Store, fields: HotelFields, elems: seq<JsValue>)
    requires Valid(s)
    requires forall k :: 0 <= k < |elems| ==> !Nullish(elems[k])
    ensures s.nextHotelId !in HotelIds(s)
    ensures Valid(Committed(s, fields, elems))
  {
    var c := Committed(s, fields, elems);
    var hs := HotelIdSeq(s.hotels);
    assert s.nextHotelId !in HotelIds(s) by {
      forall h | h in s.hotels
        ensures h.id != s.nextHotelId
      {
        var i :| 0 <= i < |s.hotels| && s.hotels[i] == h;
        assert hs[i] == h.id;
      }
    }
    IdsFreshAppend(hs, s.nextHotelId, 1);
    assert HotelIdSeq(c.hotels) == hs + seq(1, k => s.nextHotelId + k);
    IdsFreshAppend(ItemIdSeq(s.items), s.nextItemId, |elems|);
    assert ItemIdSeq(c.items) == ItemIdSeq(s.items) + seq(|elems|, k => s.nextItemId + k);
    assert UserIdSeq(c.users) == UserIdSeq(s.users);
    assert HotelIds(s) <= HotelIds(c);
    assert s.nextHotelId in HotelIds(c) by {
      assert c.hotels[|s.hotels|] in c.hotels;
    }
    forall i | 0 <= i < |c.items|
      ensures c.items[i].hotelId in HotelIds(c)
    {
      if i < |s.items| {
        assert c.items[i] == s.items[i];
      }
    }
  }

  /** The legacy handler's single INSERT into Users, outside any transaction. */
  function StoreUser(s: Store, name: JsValue, phone: string): (s': Store)
    ensures s'.hotels == s.hotels && s'.items == s.items
    ensures |s'.users| == |s.users| + 1 && s'.users[..|s.users|] == s.users
    ensures s'.users[|s.users|].name == name && s'.users[|s.users|].phone == phone
    ensures s'.users[|s.users|].id == s.nextUserId < s'.nextUserId
    ensures s'.nextHotelId == s.nextHotelId && s'.nextItemId == s.nextItemId
  {
    s.(users := s.users + [User(s.nextUserId, name, phone)], nextUserId := s.nextUserId + 1)
  }

  lemma StoreUserValid(s: Store, name: JsValue, phone: string)
    requires Valid(s)
    ensures Valid(StoreUser(s, name, phone))
  {
    var s' := StoreUser(s, name, phone);
    IdsFreshAppend(UserIdSeq(s.users), s.nextUserId, 1);
    assert UserIdSeq(s'.users) == UserIdSeq(s.users) + seq(1, k => s.nextUserId + k);
    assert HotelIds(s') == HotelIds(s);
  }
}

=== FILE: hotel_controller.dfy ===
/** `saveHotelInfo`: validate the four required fields, then insert the
    hotel and its items in one transaction and answer 201 with the new id. */
module HotelController {
  import opened Wrappers
  import opened JsValues
  import opened Http
  import opened Db

  /** The Hotels parameters: required fields as given, `position || null`
      and `address || null`. */
  function HotelRow(body: map<string, JsValue>): HotelFields {
    HotelFields(
      Field(body, "name"), Field(body, "phoneNumber"), Field(body, "whatsapp"), Field(body, "hotelName"),
      PositionAddress(OrNull(Field(body, "position")), OrNull(Field(body, "address"))))
  }

  function SaveHotelInfo(s: Store, body: map<string, JsValue>, faults: DbFaults): (o: Outcome)
    ensures o.response.BadRequest? || o.response.ServerError? || o.response.Created?
    ensures o.response.Responded() && (o.response.Success() <==> o.response.Status() == 201)
    ensures o.response.BadRequest? <==> !RequiredFieldsPresent(body)
    ensures o.response.BadRequest? ==> o.store == s && o.effects == []
    ensures o.response.ServerError? ==> o.store == s && o.effects != [] && o.effects[0] == BeginTransaction
    ensures o.response.ServerError? && !faults.beginFails ==> o.effects[|o.effects| - 1] == Rollback
    ensures o.response.Created? <==>
      && RequiredFieldsPresent(body)
      && !faults.beginFails && !faults.hotelInsertFails && !faults.commitFails
      && Insertable(RequestItems(body), 0, faults.rejectedItems)
    ensures o.response.Created? ==>
      && o.response.warning.None?
      && o.response.hotelId == s.nextHotelId
      && o.store == Committed(s, HotelRow(body), RequestItems(body))
      && o.effects == [BeginTransaction, Commit]
  {
    if !RequiredFieldsPresent(body) then
      Outcome(s, BadRequest, [])
    else
      var tx := Transaction(s, HotelRow(body), RequestItems(body), faults);
      match tx.hotelId
      case Failure(e) => Outcome(tx.store, ServerError(e), tx.effects)
      case Success(id) => Outcome(tx.store, Created(id, None), tx.effects)
  }

  /** Whatever the outcome, a valid store stays valid. */
  lemma SaveHotelInfoKeepsValid(s: Store, body: map<string, JsValue>, faults: DbFaults)
    requires Valid(s)
    ensures Valid(SaveHotelInfo(s, body, faults).store)
  {
    var o := SaveHotelInfo(s, body, faults);
    if o.response.Created? {
      CommittedValid(s, HotelRow(body), RequestItems(body));
    }
  }

  /** A 201 adds exactly one Hotels row, whose id is the one returned and
      whose optional columns hold the value or null, and one Items row per
      listed element, in order, each pointing at that hotel. */
  lemma SaveHotelInfoRows(s: Store, body: map<string, JsValue>, faults: DbFaults)
    requires SaveHotelInfo(s, body, faults).response.Created?
    ensures var o := SaveHotelInfo(s, body, faults);
      var id := o.response.hotelId;
      var elems := RequestItems(body);
      && o.store.hotels == s.hotels + [o.store.hotels[|s.hotels|]]
      && o.store.hotels[|s.hotels|].id == id
      && o.store.hotels[|s.hotels|].fields.name == Field(body, "name")
      && o.store.hotels[|s.hotels|].fields.phoneNumber == Field(body, "phoneNumber")
      && o.store.hotels[|s.hotels|].fields.whatsapp == Field(body, "whatsapp")
      && o.store.hotels[|s.hotels|].fields.hotelName == Field(body, "hotelName")
      && (Truthy(Field(body, "position")) ==> o.store.hotels[|s.hotels|].fields.details.position == Field(body, "position"))
      && (!Truthy(Field(body, "position")) ==> o.store.hotels[|s.hotels|].fields.details.position == Null)
      && (Truthy(Field(body, "address")) ==> o.store.hotels[|s.hotels|].fields.details.address == Field(body, "address"))
      && (!Truthy(Field(body, "address")) ==> o.store.hotels[|s.hotels|].fields.details.address == Null)
      && |o.store.items| == |s.items| + |elems|
      && o.store.items[..|s.items|] == s.items
      && o.store.users == s.users
      && (forall k :: 0 <= k < |elems| ==>
            && o.store.items[|s.items| + k].hotelId == id
            && o.store.items[|s.items| + k].name == Get(elems[k], "name")
            && o.store.items[|s.items| + k].description == OrNull(Get(elems[k], "description")))
  {
    var o := SaveHotelInfo(s, body, faults);
    assert o.store == Committed(s, HotelRow(body), RequestItems(body));
    CommittedRows(s, HotelRow(body), RequestItems(body));
  }

  /** Submitting the same payload twice registers two hotels with distinct
      ids: the handler is not idempotent. */
  lemma ResubmissionCreatesSecondHotel(s: Store, body: map<string, JsValue>)
    requires Valid(s)
    requires RequiredFieldsPresent(body)
    requires forall k :: 0 <= k < |RequestItems(body)| ==> !Nullish(RequestItems(body)[k])
    ensures var first := SaveHotelInfo(s, body, NoFaults);
      var second := SaveHotelInfo(first.store, body, NoFaults);
      && first.response.Created? && second.response.Created?
      && first.response.hotelId != second.response.hotelId
      && |second.store.hotels| == |s.hotels| + 2
      && {first.response.hotelId, second.response.hotelId} !! HotelIds(s)
  {
    var first := SaveHotelInfo(s, body, NoFaults);
    CommittedValid(s, HotelRow(body), RequestItems(body));
    CommittedValid(first.store, HotelRow(body), RequestItems(body));
    assert HotelIds(s) <= HotelIds(first.store) by {
      forall h | h in s.hotels ensures h in first.store.hotels {
        var i :| 0 <= i < |s.hotels| && s.hotels[i] == h;
        assert first.store.hotels[i] == h;
      }
    }
  }
}

=== FILE: http.dfy ===
/** What a request handler can observe and produce: the faults raised by
    its steps, the side effects it performs, and the HTTP response it
    chooses. */
module Http {
  import opened Wrappers
  import opened JsValues

  /** The error a step raises; the handlers turn it into a 500 response or
      into the `warning` of a 201 response. */
  datatype Fault =
    | BeginFailed                    // `transaction.begin()` rejected (also: no pool)
    | HotelInsertFailed              // the Hotels INSERT was rejected
    | ItemNotAnObject(index: nat)    // `item.name` on a null/undefined item throws
    | ItemInsertFailed(index: nat)   // the Items INSERT of element `index` was rejected
    | CommitFailed                   // `transaction.commit()` rejected
    | UserInsertFailed               // the Users INSERT was rejected
    | PhoneNotAString                // `phone.trim()` on a non-string throws
    | InvalidPhoneFormat             // the normaliser returned `null`
    | GatewayFailed(detail: string)  // the messaging gateway call failed

  /** The message text, kept only as the values substituted into it. */
  datatype Template =
    | RegistrationConfirmation(name: JsValue, hotelName: JsValue)
    | Greeting(name: JsValue)

  /** Side effects, in the order a handler performs them. */
  datatype Effect =
    | BeginTransaction
    | Commit
    | Rollback
    | InsertUser
    | Send(to: string, message: Template)

  /** The reply of the messaging gateway to one POST. */
  datatype GatewayReply = Delivered | Rejected(detail: string)

  /** The response a handler chooses. `Unhandled` is a handler that throws
      outside every `try`: the promise is rejected and no response is sent, as under Express 4. */
  datatype Response =
    | BadRequest
    | ServerError(fault: Fault)
    | Created(hotelId: nat, warning: Option<Fault>)
    | Sent
    | Unhandled(fault: Fault)
  {
    predicate Responded() {
      !Unhandled?
    }

    /** The HTTP status code of the response. */
    function Status(): int
      requires Responded()
    {
      match this
      case BadRequest => 400
      case ServerError(_) => 500
      case Created(_, _) => 201
      case Sent => 200
    }

    /** The `success` field of the JSON body. */
    predicate Success()
      requires Responded()
    {
      Created? || Sent?
    }
  }

  /** The validation shared by both registration handlers:
      `!name || !phoneNumber || !whatsapp || !hotelName` rejects. */
  predicate RequiredFieldsPresent(body: map<string, JsValue>) {
    && Truthy(Field(body, "name"))
    && Truthy(Field(body, "phoneNumber"))
    && Truthy(Field(body, "whatsapp"))
    && Truthy(Field(body, "hotelName"))
  }

  /** The names of the fields both registration handlers require. */
  const RequiredKeys: set<string> := {"name", "phoneNumber", "whatsapp", "hotelName"}

  /** A body passes validation exactly when every required field is truthy,
      so a field that is missing, `null`, `""`, `0` or `false` is rejected
      and any non-empty string is accepted. */
  lemma RequiredFieldsPresentMeaning(body: map<string, JsValue>)
    ensures RequiredFieldsPresent(body) <==> forall key :: key in RequiredKeys ==> Truthy(Field(body, key))
    ensures (exists key :: key in RequiredKeys && (key !in body || body[key] in {Null, Str(""), Num(0.0), Bool(false)}))
      ==> !RequiredFieldsPresent(body)
    ensures (forall key :: key in RequiredKeys ==> key in body && body[key].Str? && body[key].s != "")
      ==> RequiredFieldsPresent(body)
  {
    if !RequiredFieldsPresent(body) {
      var key :| key in RequiredKeys && !Truthy(Field(body, key));
    }
  }

  /** The items of the request body the item loop visits. */
  function RequestItems(body: map<string, JsValue>): seq<JsValue> {
    ListedItems(Field(body, "items"))
  }

  /** Whether a handler issued a gateway call. */
  predicate SentAny(effects: seq<Effect>) {
    exists i :: 0 <= i < |effects| && effects[i].Send?
  }
}

=== FILE: js_strings.dfy ===
/** The JavaScript string operations the phone normalisers use:
    `String.prototype.trim`, `.length` and `startsWith`. A Dafny `char` is a
    Unicode scalar value while a JavaScript string is a sequence of UTF-16
    code units, so `.length` is modelled by `Utf16Length`. */
module JsStrings {

  /** ECMAScript WhiteSpace and LineTerminator code points: what `trim`
      removes from both ends. */
  predicate IsJsWhitespace(c: char) {
    || c == '\t' || c == '\n' || c == '\U{000B}' || c == '\U{000C}' || c == '\r'
    || c == ' ' || c == '\U{00A0}' || c == '\U{1680}'
    || ('\U{2000}' <= c <= '\U{200A}')
    || c == '\U{2028}' || c == '\U{2029}' || c == '\U{202F}' || c == '\U{205F}'
    || c == '\U{3000}' || c == '\U{FEFF}'
  }

  predicate AllWhitespace(s: string) {
    forall i :: 0 <= i < |s| ==> IsJsWhitespace(s[i])
  }

  /** A string that `trim` leaves as it is. */
  predicate IsTrimmed(s: string) {
    |s| == 0 || (!IsJsWhitespace(s[0]) && !IsJsWhitespace(s[|s| - 1]))
  }

  function TrimStart(s: string): (r: string)
    ensures |r| <= |s| && r == s[|s| - |r|..]
    ensures AllWhitespace(s[..|s| - |r|])
    ensures |r| == 0 || !IsJsWhitespace(r[0])
  {
    if |s| > 0 && IsJsWhitespace(s[0]) then TrimStart(s[1..]) else s
  }

  function TrimEnd(s: string): (r: string)
    ensures |r| <= |s| && r == s[..|r|]
    ensures AllWhitespace(s[|r|..])
    ensures |r| == 0 || !IsJsWhitespace(r[|r| - 1])
  {
    if |s| > 0 && IsJsWhitespace(s[|s| - 1]) then TrimEnd(s[..|s| - 1]) else s
  }

  /** `s.trim()`: the slice of `s` left once leading and trailing
      whitespace is removed. */
  function Trim(s: string): (r: string)
    ensures IsTrimmed(r)
    ensures |r| <= |s|
  {
    TrimEnd(TrimStart(s))
  }

  /** What `trim` removes is whitespace on both sides of the slice it keeps. */
  lemma TrimIsSlice(s: string)
    ensures exists k :: 0 <= k <= |s| - |Trim(s)| && s[k..k + |Trim(s)|] == Trim(s)
                        && AllWhitespace(s[..k]) && AllWhitespace(s[k + |Trim(s)|..])
  {
    var t := TrimStart(s);
    var r := TrimEnd(t);
    var k := |s| - |t|;
    assert t == s[k..];
    assert s[k..k + |r|] == r;
    assert s[k + |r|..] == t[|r|..];
    assert Trim(s) == r;
    assert 0 <= k <= |s| - |r| && s[k..k + |r|] == r && AllWhitespace(s[..k]) && AllWhitespace(s[k + |r|..]);
  }

  /** Trimming a string padded with whitespace on both sides gives back the
      core exactly: together with `TrimIsSlice` this pins `Trim` down as the
      unique decomposition `whitespace + core + whitespace`. */
  lemma TrimPadded(a: string, core: string, b: string)
    requires AllWhitespace(a) && AllWhitespace(b) && IsTrimmed(core)
    ensures Trim(a + core + b) == core
  {
    assert a + core + b == a + (core + b);
    if |core| == 0 {
      assert a + core + b == a + b;
      assert AllWhitespace(a + b) by {
        assert forall i :: 0 <= i < |a + b| ==> (a + b)[i] == if i < |a| then a[i] else b[i - |a|];
      }
      TrimStartAllWhitespace(a + b);
    } else {
      TrimStartPadded(a, core + b);
      TrimEndPadded(core, b);
    }
  }

  lemma TrimStartAllWhitespace(s: string)
    requires AllWhitespace(s)
    ensures TrimStart(s) == []
  {
  }

  /** Leading whitespace in front of a string that starts with a
      non-whitespace character is exactly what `TrimStart` removes. */
  lemma {:induction false} TrimStartPadded(a: string, x: string)
    requires AllWhitespace(a)
    requires |x| > 0 && !IsJsWhitespace(x[0])
    ensures TrimStart(a + x) == x
  {
    if |a| == 0 {
      assert a + x == x;
    } else {
      assert (a + x)[1..] == a[1..] + x;
      TrimStartPadded(a[1..], x);
    }
  }

  /** Trailing whitespace after a string that ends with a non-whitespace
      character is exactly what `TrimEnd` removes. */
  lemma {:induction false} TrimEndPadded(x: string, b: string)
    requires AllWhitespace(b)
    requires |x| > 0 && !IsJsWhitespace(x[|x| - 1])
    ensures TrimEnd(x + b) == x
  {
    if |b| == 0 {
      assert x + b == x;
    } else {
      var t := x + b;
      assert t[..|t| - 1] == x + b[..|b| - 1];
      TrimEndPadded(x, b[..|b| - 1]);
    }
  }

  /** A string without outer whitespace is its own trim. */
  lemma TrimOfTrimmed(s: string)
    requires IsTrimmed(s)
    ensures Trim(s) == s
  {
    TrimPadded([], s, []);
    assert [] + s + [] == s;
  }

  /** `trim` is idempotent. */
  lemma TrimIdempotent(s: string)
    ensures Trim(Trim(s)) == Trim(s)
  {
    TrimOfTrimmed(Trim(s));
  }

  /** Number of UTF-16 code units that encode `c`. */
  function Utf16Units(c: char): nat {
    if c as int >= 0x1_0000 then 2 else 1
  }

  /** `s.length`: the number of UTF-16 code units of `s`. */
  function Utf16Length(s: string): (n: nat)
    ensures |s| <= n <= 2 * |s|
  {
    if |s| == 0 then 0 else Utf16Units(s[0]) + Utf16Length(s[1..])
  }

  lemma {:induction false} Utf16LengthAppend(a: string, b: string)
    ensures Utf16Length(a + b) == Utf16Length(a) + Utf16Length(b)
  {
    if |a| > 0 {
      assert (a + b)[1..] == a[1..] + b;
      Utf16LengthAppend(a[1..], b);
    } else {
      assert a + b == b;
    }
  }

  /** For text in the Basic Multilingual Plane (digits, `+`, ASCII) the
      UTF-16 length is the number of characters. */
  lemma {:induction false} Utf16LengthBmp(s: string)
    requires forall i :: 0 <= i < |s| ==> s[i] as int < 0x1_0000
    ensures Utf16Length(s) == |s|
  {
    if |s| > 0 {
      Utf16LengthBmp(s[1..]);
    }
  }

  /** `s.startsWith(c)` for a one-character prefix outside the surrogate
      range, where the first code unit and the first scalar value coincide. */
  predicate StartsWith(s: string, c: char) {
    |s| > 0 && s[0] == c
  }
}

=== FILE: js_values.dfy ===
/** The request values the handlers see once the JSON body parser has run,
    and the JavaScript operators the handlers apply to them. */
module JsValues {

  /** A value of a parsed JSON body; a missing key reads as `Undefined`.
      JSON has no NaN, so a number is falsy exactly when it is zero. */
  datatype JsValue =
    | Undefined
    | Null
    | Bool(b: bool)
    | Num(n: real)
    | Str(s: string)
    | Arr(elems: seq<JsValue>)
    | Obj(props: map<string, JsValue>)

  /** JavaScript truthiness: `undefined`, `null`, `false`, `0` and `""` are falsy. */
  predicate Truthy(v: JsValue) {
    match v
    case Undefined => false
    case Null => false
    case Bool(b) => b
    case Num(n) => n != 0.0
    case Str(s) => s != ""
    case Arr(_) => true
    case Obj(_) => true
  }

  /** The `v || null` idiom the handlers use for optional columns. */
  function OrNull(v: JsValue): JsValue {
    if Truthy(v) then v else Null
  }

  /** Values on which a property read throws a TypeError. */
  predicate Nullish(v: JsValue) {
    v.Undefined? || v.Null?
  }

  /** A property read `v.key` on a value that does not throw. Only own keys
      of a parsed object are found: the keys the handlers read (`name`,
      `description`) are not properties of strings, numbers, booleans,
      arrays or `Object.prototype`. */
  function Get(v: JsValue, key: string): JsValue
    requires !Nullish(v)
  {
    if v.Obj? && key in v.props then v.props[key] else Undefined
  }

  /** Destructuring `const { key } = body`. */
  function Field(body: map<string, JsValue>, key: string): JsValue {
    if key in body then body[key] else Undefined
  }

  /** The elements the item loop visits. The loop is guarded by
      `items && Array.isArray(items) && items.length > 0`, so anything that
      is not an array contributes no element, and an empty array none
      either. */
  function ListedItems(items: JsValue): seq<JsValue> {
    if items.Arr? && |items.elems| > 0 then items.elems else []
  }
}

=== FILE: message_controller.dfy ===
/** `sendWhatsAppAndSaveInfo`: validate, insert the hotel and its items in
    one transaction, and only after the commit try to notify the hotel's
    WhatsApp number; a failed notification downgrades the 201 to one with a
    `warning` but never undoes the saved rows. */
module MessageController {
  import opened Wrappers
  import opened JsValues
  import opened Http
  import opened Db
  import opened Phone

  /** The Hotels parameters: required fields as given, `description || null`
      and `positionAddress || null`. */
  function HotelRow(body: map<string, JsValue>): HotelFields {
    HotelFields(
      Field(body, "name"), Field(body, "phoneNumber"), Field(body, "whatsapp"), Field(body, "hotelName"),
      DescriptionPosition(OrNull(Field(body, "description")), OrNull(Field(body, "positionAddress"))))
  }

  /** The notification attempt after the commit: the gateway calls issued
      and the warning, if any. `formatPhoneNumber` throws on a non-string
      and its `null` is turned into an error, both inside the same `try` as
      the gateway call, so all three failures end up as the warning. */
  function Notify(whatsapp: JsValue, message: Template, gateway: GatewayReply)
    : (r: (seq<Effect>, Option<Fault>))
    ensures r.0 != [] <==> whatsapp.Str? && FormatStrict(whatsapp.s).Some?
    ensures r.0 != [] ==> r.0 == [Send(FormatStrict(whatsapp.s).value, message)]
    ensures r.1.None? <==> r.0 != [] && gateway.Delivered?
    ensures !whatsapp.Str? ==> r.1 == Some(PhoneNotAString)
    ensures whatsapp.Str? && FormatStrict(whatsapp.s).None? ==> r.1 == Some(InvalidPhoneFormat)
    ensures r.0 != [] && gateway.Rejected? ==> r.1 == Some(GatewayFailed(gateway.detail))
  {
    if !whatsapp.Str? then
      ([], Some(PhoneNotAString))
    else
      match FormatStrict(whatsapp.s)
      case None => ([], Some(InvalidPhoneFormat))
      case Some(to) =>
        match gateway
        case Delivered => ([Send(to, message)], None)
        case Rejected(detail) => ([Send(to, message)], Some(GatewayFailed(detail)))
  }

  function SendWhatsAppAndSaveInfo(s: Store, body: map<string, JsValue>, faults: DbFaults, gateway: GatewayReply)
    : (o: Outcome)
    ensures o.response.BadRequest? || o.response.ServerError? || o.response.Created?
    ensures o.response.Responded() && (o.response.Success() <==> o.response.Status() == 201)
    ensures o.response.BadRequest? <==> !RequiredFieldsPresent(body)
    ensures o.response.BadRequest? ==> o.store == s && o.effects == []
    ensures o.response.ServerError? ==> o.store == s && !SentAny(o.effects)
    ensures o.response.ServerError? ==> o.effects != [] && o.effects[0] == BeginTransaction
    ensures o.response.ServerError? && !faults.beginFails ==> o.effects[|o.effects| - 1] == Rollback
    ensures o.response.Created? <==>
      && RequiredFieldsPresent(body)
      && !faults.beginFails && !faults.hotelInsertFails && !faults.commitFails
      && Insertable(RequestItems(body), 0, faults.rejectedItems)
    ensures o.response.Created? ==>
      && o.response.hotelId == s.nextHotelId
      && o.store == Committed(s, HotelRow(body), RequestItems(body))
      && |o.effects| >= 2 && o.effects[..2] == [BeginTransaction, Commit]
    ensures o.response.Created? ==>
      (SentAny(o.effects) <==> Field(body, "whatsapp").Str? && FormatStrict(Field(body, "whatsapp").s).Some?)
    ensures o.response.Created? && !SentAny(o.effects) ==> o.effects == [BeginTransaction, Commit]
    ensures o.response.Created? && SentAny(o.effects) ==>
      o.effects[2..] == [Send(FormatStrict(Field(body, "whatsapp").s).value,
                              RegistrationConfirmation(Field(body, "name"), Field(body, "hotelName")))]
    ensures o.response.Created? ==>
      (o.response.warning.None? <==> SentAny(o.effects) && gateway.Delivered?)
  {
    if !RequiredFieldsPresent(body) then
      Outcome(s, BadRequest, [])
    else
      var tx := Transaction(s, HotelRow(body), RequestItems(body), faults);
      match tx.hotelId
      case Failure(e) =>
        assert tx.effects != [] && tx.effects[0] == BeginTransaction;
        Outcome(tx.store, ServerError(e), tx.effects)
      case Success(id) => Registered(tx.store, id, body, gateway)
  }

  /** The 201 after a commit that issued `[BeginTransaction, Commit]`: the
      confirmation goes to the strict normal form of `whatsapp`, and only
      the warning records whether it was delivered. */
  function Registered(committed: Store, id: nat, body: map<string, JsValue>, gateway: GatewayReply)
    : (o: Outcome)
    ensures o.store == committed && o.response.Created? && o.response.hotelId == id
    ensures |o.effects| >= 2 && o.effects[..2] == [BeginTransaction, Commit]
    ensures SentAny(o.effects) <==> Field(body, "whatsapp").Str? && FormatStrict(Field(body, "whatsapp").s).Some?
    ensures !SentAny(o.effects) ==> o.effects == [BeginTransaction, Commit]
    ensures SentAny(o.effects) ==>
      o.effects[2..] == [Send(FormatStrict(Field(body, "whatsapp").s).value,
                              RegistrationConfirmation(Field(body, "name"), Field(body, "hotelName")))]
    ensures o.response.warning.None? <==> SentAny(o.effects) && gateway.Delivered?
  {
    var message := RegistrationConfirmation(Field(body, "name"), Field(body, "hotelName"));
    var (sends, warning) := Notify(Field(body, "whatsapp"), message, gateway);
    var effects := [BeginTransaction, Commit] + sends;
    assert SentAny(effects) <==> sends != [] by {
      if sends != [] {
        assert effects[2].Send?;
      } else {
        assert effects == [BeginTransaction, Commit];
      }
    }
    Outcome(committed, Created(id, warning), effects)
  }

  /** Whatever the outcome, a valid store stays valid. */
  lemma SendWhatsAppAndSaveInfoKeepsValid(s: Store, body: map<string, JsValue>, faults: DbFaults, gateway: GatewayReply)
    requires Valid(s)
    ensures Valid(SendWhatsAppAndSaveInfo(s, body, faults, gateway).store)
  {
    if SendWhatsAppAndSaveInfo(s, body, faults, gateway).response.Created? {
      CommittedValid(s, HotelRow(body), RequestItems(body));
    }
  }

  /** A 201 adds exactly one Hotels row, whose id is the one returned, with
      the required fields as given and `description`/`positionAddress` as
      the value or null, and one Items row per listed element, in order. */
  lemma SendWhatsAppAndSaveInfoRows(s: Store, body: map<string, JsValue>, faults: DbFaults, gateway: GatewayReply)
    requires SendWhatsAppAndSaveInfo(s, body, faults, gateway).response.Created?
    ensures var o := SendWhatsAppAndSaveInfo(s, body, faults, gateway);
      var id := o.response.hotelId;
      var elems := RequestItems(body);
      && o.store.hotels == s.hotels + [o.store.hotels[|s.hotels|]]
      && o.store.hotels[|s.hotels|].id == id
      && o.store.hotels[|s.hotels|].fields.name == Field(body, "name")
      && o.store.hotels[|s.hotels|].fields.phoneNumber == Field(body, "phoneNumber")
      && o.store.hotels[|s.hotels|].fields.whatsapp == Field(body, "whatsapp")
      && o.store.hotels[|s.hotels|].fields.hotelName == Field(body, "hotelName")
      && (Truthy(Field(body, "description")) ==> o.store.hotels[|s.hotels|].fields.details.description == Field(body, "description"))
      && (!Truthy(Field(body, "description")) ==> o.store.hotels[|s.hotels|].fields.details.description == Null)
      && (Truthy(Field(body, "positionAddress")) ==> o.store.hotels[|s.hotels|].fields.details.positionAddress == Field(body, "positionAddress"))
      && (!Truthy(Field(body, "positionAddress")) ==> o.store.hotels[|s.hotels|].fields.details.positionAddress == Null)
      && |o.store.items| == |s.items| + |elems|
      && o.store.items[..|s.items|] == s.items
      && o.store.users == s.users
      && (forall k :: 0 <= k < |elems| ==>
            && o.store.items[|s.items| + k].hotelId == id
            && o.store.items[|s.items| + k].name == Get(elems[k], "name")
            && o.store.items[|s.items| + k].description == OrNull(Get(elems[k], "description")))
  {
    var o := SendWhatsAppAndSaveInfo(s, body, faults, gateway);
    assert o.store == Committed(s, HotelRow(body), RequestItems(body));
    CommittedRows(s, HotelRow(body), RequestItems(body));
  }

  /** The gateway's answer decides only the warning: the status, the hotel
      id and the stored rows are the same whether it delivers or not. */
  lemma NotificationNeverUndoesSave(s: Store, body: map<string, JsValue>, faults: DbFaults, detail: string)
    ensures var ok := SendWhatsAppAndSaveInfo(s, body, faults, Delivered);
      var failed := SendWhatsAppAndSaveInfo(s, body, faults, Rejected(detail));
      && ok.store == failed.store
      && ok.effects == failed.effects
      && (ok.response.Created? <==> failed.response.Created?)
      && (ok.response.Created? ==> ok.response.hotelId == failed.response.hotelId)
      && (failed.response.Created? && SentAny(failed.effects) ==>
            failed.response.warning == Some(GatewayFailed(detail)))
  {
  }
}

=== FILE: phone.dfy ===
/** The two phone normalisers: the strict one of the registration
    controller and the lenient one of the legacy server. Both trim, turn a
    leading `0` into the `+98` country prefix and accept `+` numbers;
    the strict one wants `+` numbers of at least ten UTF-16 code units. */
module Phone {
  import opened Wrappers
  import opened JsStrings

  /** Replacement for a leading `0` (Iran's country code). */
  const CountryPrefix: string := "+98"

  /** Shortest `+` number the strict normaliser accepts, in code units. */
  const MinInternationalLength: nat := 10

  /** The canonical form both normalisers produce: a `+`, and no outer
      whitespace (so it is never the falsy empty string). */
  predicate IsCanonical(p: string) {
    StartsWith(p, '+') && IsTrimmed(p)
  }

  /** The national-to-international rewrite of a trimmed `0…` number. */
  function Internationalize(t: string): (r: string)
    requires StartsWith(t, '0') && IsTrimmed(t)
    ensures IsCanonical(r)
    ensures |r| == |t| + 2 && Utf16Length(r) == Utf16Length(t) + 2
    ensures r[3..] == t[1..]
  {
    var r := CountryPrefix + t[1..];
    assert |t| > 1 ==> r[|r| - 1] == t[|t| - 1];
    Utf16LengthAppend(CountryPrefix, t[1..]);
    assert Utf16Length(CountryPrefix) == 3 by {
      assert CountryPrefix[1..] == "98" && CountryPrefix[1..][1..] == "8" && CountryPrefix[1..][1..][1..] == "";
    }
    r
  }

  /** Inverse of `Internationalize`: back to the national form. */
  function Nationalize(r: string): string
    requires |r| >= 3
  {
    "0" + r[3..]
  }

  /** The rewrite loses nothing: only the leading `0` is replaced and the
      rest is kept exactly, so the national form can be recovered. */
  lemma InternationalizeRoundTrip(t: string)
    requires StartsWith(t, '0') && IsTrimmed(t)
    ensures Internationalize(t)[..3] == CountryPrefix
    ensures Nationalize(Internationalize(t)) == t
  {
  }

  /** `formatPhoneNumber` of the registration controller. */
  function FormatStrict(phone: string): (r: Option<string>)
    ensures r.Some? ==> IsCanonical(r.value)
    ensures r.Some? <==>
      || (StartsWith(Trim(phone), '+') && Utf16Length(Trim(phone)) >= MinInternationalLength)
      || StartsWith(Trim(phone), '0')
    ensures r.Some? && !StartsWith(Trim(phone), '0') ==> r.value == Trim(phone)
    ensures StartsWith(Trim(phone), '0') ==>
      r.Some? && |r.value| == |Trim(phone)| + 2 && r.value[..3] == CountryPrefix && r.value[3..] == Trim(phone)[1..]
  {
    var t := Trim(phone);
    if StartsWith(t, '+') && Utf16Length(t) >= MinInternationalLength then Some(t)
    else if StartsWith(t, '0') then Some(Internationalize(t))
    else None
  }

  /** `formatPhoneNumber` of the legacy server. */
  function FormatLenient(phone: string): (r: Option<string>)
    ensures r.Some? ==> IsCanonical(r.value)
    ensures r.Some? <==> StartsWith(Trim(phone), '0') || StartsWith(Trim(phone), '+')
    ensures StartsWith(Trim(phone), '+') ==> r == Some(Trim(phone))
    ensures StartsWith(Trim(phone), '0') ==>
      r.Some? && |r.value| == |Trim(phone)| + 2 && r.value[..3] == CountryPrefix && r.value[3..] == Trim(phone)[1..]
  {
    var t := Trim(phone);
    if StartsWith(t, '0') then Some(Internationalize(t))
    else if StartsWith(t, '+') then Some(t)
    else None
  }

  /** Wherever the strict normaliser accepts, the lenient one returns the
      same number; they differ exactly on `+` numbers shorter than ten code
      units, which only the lenient one accepts. */
  lemma LenientExtendsStrict(phone: string)
    ensures FormatStrict(phone).Some? ==> FormatLenient(phone) == FormatStrict(phone)
    ensures FormatLenient(phone) != FormatStrict(phone) <==>
      FormatStrict(phone).None? && FormatLenient(phone).Some?
    ensures FormatLenient(phone) != FormatStrict(phone) <==>
      StartsWith(Trim(phone), '+') && Utf16Length(Trim(phone)) < MinInternationalLength
  {
  }

  /** `"+123"` is accepted by the lenient normaliser and rejected by the strict one. */
  lemma ShortInternationalNumber()
    ensures FormatLenient("+123") == Some("+123")
    ensures FormatStrict("+123") == None
  {
    var p := "+123";
    assert IsTrimmed(p) && StartsWith(p, '+') && !StartsWith(p, '0');
    TrimOfTrimmed(p);
    Utf16LengthBmp(p);
    assert FormatLenient(p) == Some(p);
  }

  /** Normalising a normalised number changes nothing for the lenient
      normaliser. */
  lemma LenientIdempotent(phone: string)
    requires FormatLenient(phone).Some?
    ensures FormatLenient(FormatLenient(phone).value) == FormatLenient(phone)
  {
    TrimOfTrimmed(FormatLenient(phone).value);
  }

  /** The strict normaliser is idempotent only on results of at least ten
      code units: a short national number such as `"0912"` becomes
      `"+98912"`, which the strict normaliser itself then rejects. */
  lemma StrictIdempotentIffLong(phone: string)
    requires FormatStrict(phone).Some?
    ensures var r := FormatStrict(phone).value;
      FormatStrict(r) == (if Utf16Length(r) >= MinInternationalLength then Some(r) else None)
  {
    TrimOfTrimmed(FormatStrict(phone).value);
  }

  /** A national number of fewer than eight code units (such as `"0912"`)
      is accepted, but its normal form (`"+98912"`) is not. */
  lemma ShortNationalNumberNotStable(phone: string)
    requires StartsWith(Trim(phone), '0') && Utf16Length(Trim(phone)) + 2 < MinInternationalLength
    ensures FormatStrict(phone).Some?
    ensures FormatStrict(FormatStrict(phone).value).None?
  {
    var r := Internationalize(Trim(phone));
    assert FormatStrict(phone) == Some(r);
    assert Utf16Length(r) < MinInternationalLength;
    TrimOfTrimmed(r);
  }

  /** Below ten code units the strict variant keeps the `0…` spelling but
      rejects the `+98…` spelling of the same number; the lenient one still
      maps both to `+98…`. */
  lemma ShortNationalAndInternationalDiverge(rest: string)
    requires IsTrimmed("0" + rest) && Utf16Length(CountryPrefix + rest) < MinInternationalLength
    ensures FormatStrict("0" + rest) == Some(CountryPrefix + rest)
    ensures FormatStrict(CountryPrefix + rest) == None
    ensures FormatLenient("0" + rest) == FormatLenient(CountryPrefix + rest) == Some(CountryPrefix + rest)
  {
    TrimOfTrimmed("0" + rest);
    assert ("0" + rest)[1..] == rest;
    assert Internationalize("0" + rest) == CountryPrefix + rest;
    TrimOfTrimmed(CountryPrefix + rest);
  }

  /** Distinct raw inputs can collapse onto one stored number: from ten
      code units on, a national number and its international spelling
      normalise alike. */
  lemma NationalAndInternationalCollide(rest: string)
    requires IsTrimmed("0" + rest) && Utf16Length(CountryPrefix + rest) >= MinInternationalLength
    ensures FormatStrict("0" + rest) == FormatStrict(CountryPrefix + rest) == Some(CountryPrefix + rest)
    ensures FormatLenient("0" + rest) == FormatLenient(CountryPrefix + rest) == Some(CountryPrefix + rest)
  {
    TrimOfTrimmed("0" + rest);
    assert ("0" + rest)[1..] == rest;
    var r := Internationalize("0" + rest);
    assert r == CountryPrefix + rest;
    TrimOfTrimmed(r);
  }
}

=== FILE: server.dfy ===
/** The legacy `/send-whatsapp` route of the stand-alone server: normalise
    `phone`, store the user, then send a greeting. No transaction is used,
    so a stored user stays stored when the gateway call fails. */
module Server {
  import opened Wrappers
  import opened JsValues
  import opened Http
  import opened Db
  import opened Phone

  /** The phone the route stores and messages, when `phone` is a string the
      lenient normaliser accepts. */
  function NormalizedPhone(body: map<string, JsValue>): Option<string> {
    var phone := Field(body, "phone");
    if phone.Str? then FormatLenient(phone.s) else None
  }

  /** The `try` block of the route once `to` is known: store, then send. */
  function StoreThenSend(s: Store, name: JsValue, to: string, userInsertFails: bool, gateway: GatewayReply)
    : (o: Outcome)
    ensures |o.effects| > 0 && o.effects[0] == InsertUser
    ensures o.response.Sent? || o.response.ServerError?
    ensures o.response.Success() <==> o.response.Status() == 200
    ensures o.response.Sent? <==> !userInsertFails && gateway.Delivered?
    ensures userInsertFails ==>
      o.store == s && o.effects == [InsertUser] && o.response == ServerError(UserInsertFailed)
    ensures !userInsertFails ==>
      && o.store == StoreUser(s, name, to)
      && o.effects == [InsertUser, Send(to, Greeting(name))]
    ensures !userInsertFails && gateway.Rejected? ==> o.response == ServerError(GatewayFailed(gateway.detail))
  {
    if userInsertFails then
      Outcome(s, ServerError(UserInsertFailed), [InsertUser])
    else
      var stored := StoreUser(s, name, to);
      var effects := [InsertUser, Send(to, Greeting(name))];
      match gateway
      case Delivered => Outcome(stored, Sent, effects)
      case Rejected(detail) => Outcome(stored, ServerError(GatewayFailed(detail)), effects)
  }

  function SendWhatsapp(s: Store, body: map<string, JsValue>, userInsertFails: bool, gateway: GatewayReply)
    : (o: Outcome)
    ensures o.response.Unhandled? <==> !Field(body, "phone").Str?
    ensures o.response.BadRequest? <==> Field(body, "phone").Str? && NormalizedPhone(body).None?
    ensures o.response.Unhandled? || o.response.BadRequest? ==> o.store == s && o.effects == []
    ensures o.response.Sent? || o.response.ServerError? ==>
      && NormalizedPhone(body).Some?
      && o == StoreThenSend(s, Field(body, "name"), NormalizedPhone(body).value, userInsertFails, gateway)
    ensures !o.response.Created?
    ensures o.response.Responded() ==> (o.response.Success() <==> o.response.Status() == 200)
  {
    var phone := Field(body, "phone");
    if !phone.Str? then
      Outcome(s, Unhandled(PhoneNotAString), [])
    else
      match NormalizedPhone(body)
      case None => Outcome(s, BadRequest, [])
      case Some(to) => StoreThenSend(s, Field(body, "name"), to, userInsertFails, gateway)
  }

  /** The gateway is called only after the user row is written, and a
      failed call leaves that row in place. */
  lemma StoreBeforeSend(s: Store, body: map<string, JsValue>, userInsertFails: bool, gateway: GatewayReply)
    ensures var o := SendWhatsapp(s, body, userInsertFails, gateway);
      && (SentAny(o.effects) ==> o.effects[0] == InsertUser && o.store != s)
      && (o.response.Sent? <==> NormalizedPhone(body).Some? && !userInsertFails && gateway.Delivered?)
      && (o.response.ServerError? && SentAny(o.effects) ==> o.store.users == s.users + [User(s.nextUserId, Field(body, "name"), NormalizedPhone(body).value)])
  {
    var o := SendWhatsapp(s, body, userInsertFails, gateway);
    if SentAny(o.effects) {
      var i :| 0 <= i < |o.effects| && o.effects[i].Send?;
      assert !userInsertFails;
      assert |o.store.users| == |s.users| + 1;
    }
  }

  /** The row the route stores carries the normalised phone, not the raw one. */
  lemma StoresNormalizedPhone(s: Store, body: map<string, JsValue>, userInsertFails: bool, gateway: GatewayReply)
    requires SendWhatsapp(s, body, userInsertFails, gateway).store != s
    ensures var o := SendWhatsapp(s, body, userInsertFails, gateway);
      && |o.store.users| == |s.users| + 1
      && o.store.users[|s.users|].phone == FormatLenient(Field(body, "phone").s).value
      && o.store.users[|s.users|].name == Field(body, "name")
      && o.store.users[|s.users|].id == s.nextUserId
      && o.store.hotels == s.hotels && o.store.items == s.items
  {
  }

  /** Whatever the outcome, a valid store stays valid. */
  lemma SendWhatsappKeepsValid(s: Store, body: map<string, JsValue>, userInsertFails: bool, gateway: GatewayReply)
    requires Valid(s)
    ensures Valid(SendWhatsapp(s, body, userInsertFails, gateway).store)
  {
    var o := SendWhatsapp(s, body, userInsertFails, gateway);
    if o.store != s {
      StoreUserValid(s, Field(body, "name"), NormalizedPhone(body).value);
    }
  }
}

=== FILE: variants.dfy ===
/** How the two registration controllers and the legacy route relate to
    each other. */
module Variants {
  import opened Wrappers
  import opened JsValues
  import opened JsStrings
  import opened Http
  import opened Db
  import opened Phone
  import HotelController
  import MessageController
  import Server

  /** Both registration controllers validate alike and persist alike: same
      status, same new hotel id, same item rows; only the two optional hotel
      columns they write differ. */
  lemma ControllersPersistAlike(s: Store, body: map<string, JsValue>, faults: DbFaults, gateway: GatewayReply)
    ensures var a := HotelController.SaveHotelInfo(s, body, faults);
      var b := MessageController.SendWhatsAppAndSaveInfo(s, body, faults, gateway);
      && (a.response.BadRequest? <==> b.response.BadRequest?)
      && (a.response.Created? <==> b.response.Created?)
      && (a.response.Created? ==>
            && a.response.hotelId == b.response.hotelId
            && a.store.items == b.store.items
            && |a.store.hotels| == |b.store.hotels| == |s.hotels| + 1
            && a.store.hotels[..|s.hotels|] == b.store.hotels[..|s.hotels|] == s.hotels
            && a.store.hotels[|s.hotels|].id == b.store.hotels[|s.hotels|].id
            && a.store.hotels[|s.hotels|].fields.name == b.store.hotels[|s.hotels|].fields.name
            && a.store.hotels[|s.hotels|].fields.phoneNumber == b.store.hotels[|s.hotels|].fields.phoneNumber
            && a.store.hotels[|s.hotels|].fields.whatsapp == b.store.hotels[|s.hotels|].fields.whatsapp
            && a.store.hotels[|s.hotels|].fields.hotelName == b.store.hotels[|s.hotels|].fields.hotelName
            && a.store.users == b.store.users)
      && (!a.response.Created? ==> a.store == b.store == s)
  {
  }

  /** A `+` number shorter than ten code units sent as both `whatsapp` and
      `phone`: the registration controller saves the hotel but only warns,
      while the legacy route stores the user and messages the number. */
  lemma ShortNumberDivergence(s: Store, body: map<string, JsValue>, p: string)
    requires RequiredFieldsPresent(body)
    requires Field(body, "whatsapp") == Str(p) && Field(body, "phone") == Str(p)
    requires IsTrimmed(p) && StartsWith(p, '+') && Utf16Length(p) < MinInternationalLength
    requires forall k :: 0 <= k < |RequestItems(body)| ==> !Nullish(RequestItems(body)[k])
    ensures var strict := MessageController.SendWhatsAppAndSaveInfo(s, body, NoFaults, Delivered);
      && strict.response.Created?
      && strict.response.warning == Some(InvalidPhoneFormat)
      && !SentAny(strict.effects)
    ensures var lenient := Server.SendWhatsapp(s, body, false, Delivered);
      && lenient.response == Sent
      && lenient.effects[1] == Send(p, Greeting(Field(body, "name")))
  {
    TrimOfTrimmed(p);
    assert FormatStrict(p).None?;
    assert FormatLenient(p) == Some(p);
    assert Insertable(RequestItems(body), 0, {});
    var strict := MessageController.SendWhatsAppAndSaveInfo(s, body, NoFaults, Delivered);
    assert strict.response.Created?;
    var lenient := Server.SendWhatsapp(s, body, false, Delivered);
    assert Server.NormalizedPhone(body) == Some(p);
  }
}

=== FILE: wrappers.dfy ===
/** Optional values and success/failure results, used where the source
    returns `null` or throws. */
module Wrappers {

  /** `None` stands for the source's `null` return. */
  datatype Option<T> = None | Some(value: T)

  /** `Failure` stands for an exception raised by a step of a handler. */
  datatype Result<T, E> = Success(value: T) | Failure(error: E)
}
